=== FILE: README.md ===
# PassEM vault engine — a Dafny model

PassEM is a single-user password vault served by Flask. A master password unlocks a JSON
document holding a bcrypt hash of that password and a map from random account ids to
individually encrypted account records. This project models, as pure functions over immutable
values, the parts of the program that decide anything:

- **the vault engine** (`scripts/functions.py`): `initialize_db`, `password_check`, `load_db`,
  `edit_account`, `add_account`, `delete_account` and `generate_id`, as transitions and queries
  on a `Store` value (no file, an unparsable file, or a parsed `Document`). Each mutation
  returns `Success(Unchanged)`, `Success(Wrote(doc))` or the exception that escapes it;
  `After` applies that result to the store (module `Vault`, lemmas in `Lifecycle`);
- **record framing** (`scripts/crypt.py`): `encrypt` / `decrypt` of one account, with scrypt
  (section 6 of RFC 7914), AES-GCM (sections 7.1 and 7.2 of NIST SP 800-38D), base64
  (section 4 of RFC 4648), UTF-8, JSON and bcrypt as uninterpreted functions gathered in
  `Foreign.Lib`; the laws assumed of them are the predicate `Foreign.Lawful` (module `Crypt`);
- **the master-password policy and the authorization gate** (`app.py`): the ordered checks of
  `/initialize`, `check_authorization`, and `IDLENGTH` (module `App`);
- **`escapeHtml` and the search filter** (`static/javascript/vault.js`), modules `Escape` and
  `Search`.

Randomness is an explicit input: `Crypt.Entropy` carries the 16-byte salt and nonce an
`encrypt` call draws, `draw: nat -> nat` the successive `random.choice` picks of `generate_id`,
and a string the salt `bcrypt.gensalt()` returns. The iteration order of the stored `accounts`
object (its insertion order) is the `order` argument of `LoadDb`.

Behaviours of the program that a reader might not expect, modelled as written:

- `edit_account` is an upsert: it never reports a missing id.
- `add_account` performs no id-collision check: a colliding id overwrites the older record.
- `load_db` is all-or-nothing, not "drop the records that fail". It returns `{}` as soon as a
  record lacks a field (a caught KeyError). Any other failure is a ValueError that escapes:
  a failed tag check (a wrong password, say), bad base64, or a plaintext that is not JSON.
  Which record decides depends on the iteration order.
- In `password_check`, the exception handler returns false only for a missing file or a
  missing `user` entry; otherwise the result is `bcrypt.checkpw`'s verdict, false for a wrong
  password. A `user` without a `password` reaches `bcrypt.checkpw` with an empty hash, and the
  ValueError that raises escapes (`Lifecycle.MissingHashRaises`).
- The document is rewritten in place by plain `open(…, 'w')`, not atomically, and no lock
  guards read-modify-write.

## Model

| member | source | states |
|---|---|---|
| Vault.Read | scripts/database.py:13-18 | a missing file raises the caught IOError, an unparsable one an escaping ValueError, otherwise the document is returned |
| Vault.InitializeDb | scripts/functions.py:50-69 | an existing file (even an unparsable one) is left untouched; otherwise a document is written whose `user` holds exactly the salt and the bcrypt hash of the password under that salt, and whose `accounts` is empty |
| Vault.PasswordCheck | scripts/functions.py:72-84 | false for a missing file or a document without `user`; with a `user` entry, exactly bcrypt's verdict on the password against the stored hash (the empty string when the entry has no `password`), an invalid hash raising; only an uncaught exception ever escapes |
| Vault.DecryptInOrder | scripts/functions.py:93-96 | the comprehension succeeds iff every record in iteration order decrypts, and then its key set is exactly the stored ids, each mapped to that record's decryption; otherwise it raises the exception of the first failing record, all earlier ones having decrypted |
| Vault.LoadDb | scripts/functions.py:87-99 | a missing file gives `{}`, an unparsable one raises; when every record decrypts the result is the full decrypted map; any successful result is either `{}` or that full map, never a part of it; whatever escapes is not a caught exception |
| Vault.EditAccount | scripts/functions.py:102-118 | with an `accounts` map, `accounts[id]` becomes the encryption of the edited account whether or not `id` existed, every other id and `user` unchanged; without one, or without a file, nothing is written |
| Vault.AddAccount | scripts/functions.py:121-138 | on a parsed document, the accounts map (created if absent) gains the generated id mapped to the new encryption, other ids keep their records, `user` unchanged; without a file nothing is written |
| Vault.DeleteAccount | scripts/functions.py:141-149 | writes iff the id is present, and then removes exactly that id, keeping `user` and every other record |
| Lifecycle.LoadDbCaughtFailureEmpties | scripts/functions.py:91-99 | if some record fails and every failure is a caught one (a missing field), the load returns `{}` in any iteration order |
| Lifecycle.CompleteRecordsNeverEmpty | scripts/functions.py:91-99 | when every stored record holds the four fields, the load succeeds exactly when every record decrypts; a record that fails makes it raise, not return `{}` |
| Lifecycle.NonEmptyCompleteVaultNeverEmpty | scripts/functions.py:91-99 | on a non-empty vault of complete records, `load_db` returns every record or raises, never `{}` |
| Lifecycle.LoadDbFirstFailureDecides | scripts/functions.py:91-99 | the record first in iteration order to fail decides the load: a caught exception gives `{}`, any other exception is raised, whatever the later records do |
| Lifecycle.LoadDbUncaughtFailureRaises | scripts/functions.py:91-99 | if some record fails and every failure escapes (a failed tag check), the load raises the exception of one of the failing records |
| Lifecycle.MissingHashRaises | scripts/functions.py:76-84 | a `user` entry without a `password` hands bcrypt the empty hash, whose ValueError escapes `password_check` instead of giving false or true |
| Lifecycle.HashedPasswordAccepted | scripts/functions.py:72-84 | any stored document whose `user.password` is the bcrypt hash of a password, under any salt, accepts that password |
| Lifecycle.InitializeThenCheck | scripts/functions.py:54-84 | after initializing a fresh location, `password_check` accepts that password; initializing an existing file again changes nothing |
| Lifecycle.AccountOperationsKeepPasswordCheck | scripts/functions.py:102-149 | editing, adding and deleting accounts leave the master password check's verdict unchanged |
| Lifecycle.DeleteIsIdempotent | scripts/functions.py:141-149 | a second delete of the same id writes nothing |
| Lifecycle.AddThenLoad | scripts/functions.py:130-135 | after an add, loading with the same password yields the previous decrypted map with the generated id mapped to the added account |
| Lifecycle.EditThenLoad | scripts/functions.py:111-115 | after an edit, loading yields the previous decrypted map with `id` mapped to the edited account |
| Lifecycle.DeleteThenLoad | scripts/functions.py:141-146 | after a delete, loading yields the previous decrypted map without `id` |
| Lifecycle.DeleteLeavesRest | scripts/functions.py:141-146 | a delete leaves a parsed document whose accounts are the old ones without `id` |
| Lifecycle.DecryptedAfterRemove | scripts/functions.py:93-96 | removing one record from a fully decryptable map removes exactly its decryption |
| Lifecycle.LoadFullyDecryptable | scripts/functions.py:91-96 | a document whose every record decrypts loads to its full decrypted view |
| Lifecycle.AddToEmptyThenLoad | scripts/functions.py:121-135 | after one add to a vault with no accounts, a load with the same password returns exactly the added account under the generated id |
| Lifecycle.AddOverwritesOnCollision | scripts/functions.py:132-134 | when the generated id is taken, the key set does not grow and the older record is replaced |
| Lifecycle.DecryptedAfterUpdate | scripts/functions.py:93-96 | replacing one record by one that decrypts to `a` changes the decrypted view at that id only, to `a` |
| Ids.GenerateId | scripts/functions.py:152-159 | the id has exactly `length` characters (none for a negative length), each an ASCII letter or digit |
| Ids.AlphabetIsAlnum | scripts/functions.py:156 | `ascii_letters + digits` has 62 characters, exactly the ASCII letters and digits |
| Ids.IndexOf | scripts/functions.py:156 | every ASCII letter or digit has a position in the alphabet |
| Ids.EveryAlnumStringIsReachable | scripts/functions.py:152-159 | every string of ASCII letters and digits is produced by some sequence of random choices |
| Crypt.Encrypt | scripts/crypt.py:7-28 | the stored record has exactly the keys `account`, `salt`, `nonce`, `tag` |
| Crypt.Field | scripts/crypt.py:34-37 | reading a field raises KeyError exactly when the field is absent |
| Crypt.Decrypt | scripts/crypt.py:30-50 | plaintext is only returned for a record holding all four fields; the only exception a handler would catch is the KeyError of a missing field; decryption never raises an IOError or a bcrypt error |
| Crypt.KeysAgree | scripts/crypt.py:12-46 | `encrypt` and `decrypt` derive the key with the same parameters (n = 2^14, r = 8, p = 1, 32 bytes), so the key depends on password and salt alone and is 256 bits long |
| Crypt.EncryptFieldsDecode | scripts/crypt.py:23-37 | the four stored strings decode back to the ciphertext, the 16-byte salt, the nonce and the tag `encrypt` produced |
| Crypt.EncryptIsAuthentic | scripts/crypt.py:7-28 | a record `encrypt` produced is an AES-GCM sealing of its text under the key of its own salt |
| Crypt.DecryptIffAuthentic | scripts/crypt.py:30-50 | `decrypt` returns an account iff the record authentically seals, under that password, a JSON text parsing to it: the tag is verified before anything is returned |
| Crypt.RoundTrip | scripts/crypt.py:7-50 | decrypting the encryption of `json.dumps(a)` with the same password returns `a` |
| Crypt.MissingFieldRaisesKeyError | scripts/crypt.py:34-37 | an encrypted record that lost any one field fails with KeyError for that field |
| App.Search | app.py:90-93 | `re.search` of a character class finds a match iff some character of the string is in the class |
| App.Validate | app.py:84-97 | the checks run mismatch, length, character classes, existing database, and the first failure decides; initialization proceeds iff both fields agree, the password is at least 16 characters with an upper-case letter, a lower-case letter, a digit and one of `@#$%^&+=!`, and no database exists; two missing fields raise a TypeError |
| App.Initialize | app.py:81-105 | only a passing validation changes anything; it then writes exactly the document `initialize_db` creates on a fresh location and stores the password in the session |
| App.CheckAuthorization | app.py:35-41 | no password in the session is a refusal; with one, the result is exactly `password_check`'s verdict on it; approval needs a session password and a parsed database |
| App.InitializeAuthorizes | app.py:96-102 | after a successful `/initialize`, `check_authorization` approves the session |
| App.RouteIdsHaveLength32 | app.py:147-153 | every id added through the routes is 32 ASCII letters and digits long |
| App.ScenarioPasswordAccepted | app.py:84-97 | "Str0ngP@ssphrase1234" passes the password policy |
| App.Scenario | app.py:81-102 | initializing a fresh vault with "Str0ngP@ssphrase1234" proceeds, leaves a document with no accounts, and authorizes that password |
| Escape.EscapeHtml | static/javascript/vault.js:1-3 | `escapeHtml` agrees with the independent per-character escape: `"` to `&quot;`, `'` to `&#039;`, every other character, `&`, `<` and `>` included, copied in order |
| Escape.ChainedIsPerCharacter | static/javascript/vault.js:1-3 | the two chained global replacements equal escaping each character on its own, in order |
| Escape.NoQuotesSurvive | static/javascript/vault.js:1-3 | the escaped string contains no `"` and no `'` |
| Escape.EscapeLength | static/javascript/vault.js:1-3 | escaping lengthens the string by exactly five characters per quote |
| Escape.EscapeQuoteFreeIdentity | static/javascript/vault.js:1-3 | on a quote-free string escaping is the identity |
| Escape.EscapeIdempotent | static/javascript/vault.js:1-3 | escaping twice equals escaping once |
| Escape.ReplacementOrderIrrelevant | static/javascript/vault.js:2 | performing the two replacements in the other order gives the same result |
| Escape.AttributeRoundTripFails | static/javascript/vault.js:1-3 | as written, the text `&quot;` is left unchanged by escaping and reads back from an attribute as `"` |
| Escape.EscapeAttributeIsPerCharacter | static/javascript/vault.js:1-3 | the corrected escape maps `&` to `&amp;` and otherwise escapes like `escapeHtml`, character by character |
| Escape.DecodeEscapedChar | static/javascript/vault.js:1-3 | decoding an escaped character followed by anything yields that character first |
| Escape.AttributeRoundTrip | static/javascript/vault.js:1-3 | with `&` escaped, decoding the attribute's character references gives back exactly the escaped value |
| Search.Lower | static/javascript/vault.js:170-175 | lower-casing keeps the length and maps each character on its own |
| Search.Includes | static/javascript/vault.js:176 | `includes` holds iff the needle occurs at some position of the haystack |
| Search.SearchRows | static/javascript/vault.js:169-178 | rows keep their cells and their number; a row without a third cell is untouched; a row with one is shown iff its lower-cased URL contains the lower-cased term |
| Search.EmptySearchShowsAll | static/javascript/vault.js:169-178 | an empty search term shows every row that has a URL cell |
| Search.SearchIgnoresCase | static/javascript/vault.js:170-176 | terms with the same lower-case form select the same rows |
| Search.ExtendingTermNarrows | static/javascript/vault.js:169-178 | a row shown for a longer term is shown for every prefix of it |

## Findings

| source | as written | input that shows it | evidently intended | confidence | as-written member | corrected member |
|---|---|---|---|---|---|---|
| static/javascript/vault.js:1-3 | `escapeHtml` replaces only `"` and `'`; `&` is copied. The result is placed in the `data-name`, `data-url` and `data-password` attributes of the Edit button, and the Edit form is filled from `dataset`, which decodes character references | an account whose name is the text `&quot;`: the attribute holds `&quot;`, `dataset.name` reads `"`, and saving the Edit form stores `"` | the escape is there so that each value survives the attribute unchanged, which needs `&` escaped first (`&amp;`) | medium; not executed | Escape.AttributeRoundTripFails | Escape.AttributeRoundTrip |

The corrected escape is `Escape.EscapeAttribute`. `Escape.DecodeAttribute` decodes only the
three references `&quot;`, `&#039;` and `&amp;`. A browser decodes many more, but on the output
of the corrected escape every `&` starts one of these three, so for values without CR or NUL
both decoders agree there.
Nothing else in the model uses the escape, so the rest of the model is unaffected.

## Left out

- File I/O and JSON parsing of the document (`scripts/database.py`): the file is the `Store` value. Write failures are not modelled; every write succeeds and replaces the whole document.
- Document shapes other than missing keys; the model's `Document` admits only objects of strings, so none of these arises. What happens depends on the call site, not on the shape. Subscripting a non-object raises the TypeError the handlers catch: a top-level document that is not an object at `db_data['user']` (functions.py:78) and `db_data['accounts']` (functions.py:114), a record that is not an object at `encrypted_account[...]`, and a record field that is not a string at `b64decode` (crypt.py:34-37). A method call on the wrong type raises an AttributeError, which `(IOError, KeyError, TypeError)` does not catch, so it escapes: a top-level document that is not an object at `.get` and `.setdefault` (functions.py:95, 134, 144), a `user` that is not an object at `.get` (functions.py:78), a `password` that is not a string at `.encode` (functions.py:79), and an `accounts` that is null or a list at `.items()` (functions.py:95).
- bcrypt's 72-byte limit: `hashpw` is total here. Real bcrypt truncates passwords longer than 72 bytes, and recent releases raise ValueError for them; the password policy sets no upper length, so with such a release `initialize_db` would escape with that error. The model assumes the truncating behaviour hidden inside `hashpw`.
- Escape.DecodeAttribute: an HTML parser also turns CR and CRLF into LF and NUL into U+FFFD; that is not modelled, so `Escape.AttributeRoundTrip` speaks only of character-reference decoding.
- The internals of scrypt, AES-GCM, base64, UTF-8, JSON and bcrypt. They are uninterpreted functions; `Foreign.Lawful` lists the laws assumed.
- Wrong-password and tamper rejection are not proved. They are cryptographic and probabilistic properties of AES-GCM, beyond `Lawful`'s laws. `Crypt.DecryptIffAuthentic` states what can be proved: plaintext is returned only for an authentic sealing.
- Salt and nonce uniqueness across calls: a statistical property of the random source.
- Randomness: `random.choice`, `get_random_bytes` and `bcrypt.gensalt` are inputs.
- Concurrency: there is no locking around read-modify-write. Each operation is one atomic transition here.
- Flask routing, HTTP status codes, templates, session storage, logging, `login`, `logout`, `vault`, `get_data` and `manage_account` beyond the id length they pass. All are glue around the modelled calls.
- The DOM construction, `fetch` calls and modals of vault.js. Only `escapeHtml` and the search predicate are modelled.
- Search.Lower: models `toLowerCase` on ASCII only. Full Unicode case mapping is not modelled.
- App.Validate: models `\d` as the ASCII digits. Python's pattern also matches other Unicode decimal digits.
- Crypt.Decrypt: returns the account record only. `json.loads` of a valid JSON text of another shape is treated like a parse failure.

=== FILE: app.dfy ===
/** The route-level pieces of app.py that decide something: the master-password policy of
    `/initialize`, the `check_authorization` gate, and the id length the routes use. */
module App {
  import opened Results
  import opened Errors
  import opened Foreign
  import opened Crypt
  import opened Vault
  import Ids
  import Lifecycle

  /** `IDLENGTH`: the length of every account id the routes generate. */
  const IdLength: int := 32

  /** The minimum length `len(new_password)` must reach. */
  const MinLength: nat := 16

  /** A one-character regular expression class, as searched for by `re.search`. */
  datatype CharClass = Range(lo: char, hi: char) | OneOf(members: string)

  const Upper := Range('A', 'Z')
  const Lower := Range('a', 'z')
  /** `\d`, restricted to ASCII digits. */
  const Digit := Range('0', '9')
  const Special := OneOf("@#$%^&+=!")

  predicate InClass(c: char, cls: CharClass) {
    match cls
    case Range(lo, hi) => lo <= c <= hi
    case OneOf(members) => c in members
  }

  /** `re.search(cls, s) is not None`: scans `s` from the left for a character of the class. */
  function Search(cls: CharClass, s: string): (found: bool)
    ensures found <==> exists i :: 0 <= i < |s| && InClass(s[i], cls)
  {
    if s == [] then false
    else if InClass(s[0], cls) then true
    else
      var rest := Search(cls, s[1..]);
      assert forall i :: 1 <= i < |s| ==> s[i] == s[1..][i - 1];
      rest
  }

  /** The password policy stated without regular expressions: at least 16 characters, among
      them an upper-case letter, a lower-case letter, a digit and one of `@#$%^&+=!`. */
  ghost predicate Strong(pw: string) {
    && |pw| >= 16
    && (exists i :: 0 <= i < |pw| && 'A' <= pw[i] <= 'Z')
    && (exists i :: 0 <= i < |pw| && 'a' <= pw[i] <= 'z')
    && (exists i :: 0 <= i < |pw| && '0' <= pw[i] <= '9')
    && (exists i :: 0 <= i < |pw| && pw[i] in "@#$%^&+=!")
  }

  /** How a POST to `/initialize` ends. `ServerError` is the TypeError of `len(None)` when both
      form fields are missing, which escapes the route. */
  datatype Verdict = ServerError | Mismatch | TooShort | WeakCharacters | AlreadyExists | Proceed

  /** The checks of `/initialize`, in source order; the first that fails decides. */
  function Validate(newPassword: Option<string>, confirmPassword: Option<string>, dbExists: bool): (v: Verdict)
    ensures v == Mismatch <==> newPassword != confirmPassword
    ensures v == ServerError <==> newPassword == confirmPassword == None
    ensures v == TooShort <==> newPassword == confirmPassword && newPassword.Some? && |newPassword.value| < MinLength
    ensures v == WeakCharacters <==> newPassword == confirmPassword && newPassword.Some? && |newPassword.value| >= MinLength
                                     && !Strong(newPassword.value)
    ensures v == Proceed <==> newPassword == confirmPassword && newPassword.Some? && Strong(newPassword.value) && !dbExists
    ensures v == AlreadyExists <==> newPassword == confirmPassword && newPassword.Some? && Strong(newPassword.value) && dbExists
  {
    if newPassword != confirmPassword then Mismatch
    else if newPassword.None? then ServerError
    else
      var pw := newPassword.value;
      if |pw| < MinLength then TooShort
      else if !Search(Upper, pw) || !Search(Lower, pw) || !Search(Digit, pw) || !Search(Special, pw) then WeakCharacters
      else if dbExists then AlreadyExists
      else Proceed
  }

  /** The state the `/initialize` route acts on: the database file and the session's password. */
  datatype Server = Server(store: Store, session: Option<string>)

  /** POST `/initialize`: validate, then `initialize_db` and remember the password in the session.
      `database_exists` is whether any file is at the database path. */
  function Initialize(lib: Lib, server: Server, newPassword: Option<string>, confirmPassword: Option<string>, bcryptSalt: string)
    : (r: (Verdict, Server))
    ensures r.0 == Validate(newPassword, confirmPassword, server.store != NoFile)
    ensures r.0 != Proceed ==> r.1 == server
    ensures r.0 == Proceed ==> server.store == NoFile && r.1.store.Stored? && r.1.session == newPassword
    ensures r.0 == Proceed ==> r.1.store == Stored(InitializeDb(lib, NoFile, newPassword.value, bcryptSalt).doc)
  {
    var v := Validate(newPassword, confirmPassword, server.store != NoFile);
    if v != Proceed then (v, server)
    else
      var pw := newPassword.value;
      var effect := InitializeDb(lib, server.store, pw, bcryptSalt);
      (v, Server(After(server.store, Success(effect)), Some(pw)))
  }

  /** `check_authorization()`: no password in the session is a refusal; otherwise the verdict of
      `password_check` on it. */
  function CheckAuthorization(lib: Lib, server: Server): (r: Result<bool, Exception>)
    ensures server.session.None? ==> r == Success(false)
    ensures server.session.Some? ==> r == PasswordCheck(lib, server.store, server.session.value)
    ensures r == Success(true) ==> server.session.Some? && server.store.Stored?
  {
    match server.session
    case None => Success(false)
    case Some(pw) => PasswordCheck(lib, server.store, pw)
  }

  /** A successful `/initialize` leaves a session that `check_authorization` accepts. */
  lemma InitializeAuthorizes(lib: Lib, server: Server, newPassword: Option<string>, confirmPassword: Option<string>, bcryptSalt: string)
    requires Lawful(lib)
    requires Initialize(lib, server, newPassword, confirmPassword, bcryptSalt).0 == Proceed
    ensures CheckAuthorization(lib, Initialize(lib, server, newPassword, confirmPassword, bcryptSalt).1) == Success(true)
  {
    Lifecycle.InitializeThenCheck(lib, server.store, newPassword.value, newPassword.value, bcryptSalt, bcryptSalt);
  }

  /** Ids generated through the account routes are 32 ASCII letters and digits long. */
  lemma RouteIdsHaveLength32(lib: Lib, d: Document, masterPass: string, a: Account, draw: nat -> nat, rnd: Entropy)
    ensures var s := After(Stored(d), AddAccount(lib, Stored(d), IdLength, masterPass, a, draw, rnd));
            forall k :: k in AccountsOf(s.doc) && k !in AccountsOf(d) ==>
              |k| == 32 && forall i :: 0 <= i < |k| ==> Ids.IsAsciiAlnum(k[i])
  {
  }

  const ScenarioPassword := "Str0ngP@ssphrase1234"

  /** "Str0ngP@ssphrase1234" passes every check of the policy. */
  lemma ScenarioPasswordAccepted()
    ensures Validate(Some(ScenarioPassword), Some(ScenarioPassword), false) == Proceed
  {
    var pw := ScenarioPassword;
    assert |pw| == 20;
    assert 'A' <= pw[0] <= 'Z' && 'a' <= pw[1] <= 'z' && '0' <= pw[3] <= '9';
    assert pw[7] == '@';
  }

  /** The end-to-end scenario, first half: initializing a fresh vault with
      "Str0ngP@ssphrase1234" succeeds and authorizes that password. */
  lemma Scenario(lib: Lib, bcryptSalt: string)
    requires Lawful(lib)
    ensures var r := Initialize(lib, Server(NoFile, None), Some(ScenarioPassword), Some(ScenarioPassword), bcryptSalt);
            && r.0 == Proceed
            && r.1.store.Stored? && r.1.store.doc.accounts == Some(map[])
            && CheckAuthorization(lib, r.1) == Success(true)
  {
    ScenarioPasswordAccepted();
    InitializeAuthorizes(lib, Server(NoFile, None), Some(ScenarioPassword), Some(ScenarioPassword), bcryptSalt);
  }
}

=== FILE: crypt.dfy ===
/** Per-record authenticated encryption (scripts/crypt.py): an account's JSON text is sealed
    with AES-GCM under a key scrypt derives from the master password and a fresh salt, and
    stored as four base64 strings. */
module Crypt {
  import opened Results
  import opened Errors
  import opened Foreign

  /** `AES.block_size`, the length of the per-record salt, and the length of the nonce
      AES-GCM draws when none is given. */
  const BlockSize: nat := 16

  type Block = b: Bytes | |b| == BlockSize witness [0, 0, 0, 0, 0, 0, 0, 0, 0, 0, 0, 0, 0, 0, 0, 0]

  /** The fresh random bytes one call of `encrypt` consumes. */
  datatype Entropy = Entropy(salt: Block, nonce: Block)

  /** The scrypt parameters written out in `encrypt` and, separately, in `decrypt`. */
  const EncryptKdf := ScryptParams(16384, 8, 1, 32)  // n = 2**14
  const DecryptKdf := ScryptParams(16384, 8, 1, 32)  // n = 2**14

  /** A stored record: the JSON object of base64 strings, field name to value. */
  type EncRecord = map<string, string>

  const AccountField := "account"
  const SaltField := "salt"
  const NonceField := "nonce"
  const TagField := "tag"
  const Fields := {AccountField, SaltField, NonceField, TagField}

  function DeriveKey(lib: Lib, password: string, salt: Bytes, params: ScryptParams): Bytes {
    lib.scrypt(lib.encodeUtf8(password), salt, params)
  }

  /** `encrypt(account, master_pass)` with the random salt and nonce supplied by `rnd`. */
  function Encrypt(lib: Lib, account: string, masterPass: string, rnd: Entropy): (r: EncRecord)
    ensures r.Keys == Fields
  {
    var key := DeriveKey(lib, masterPass, rnd.salt, EncryptKdf);
    var sealed := lib.gcmSeal(key, rnd.nonce, lib.encodeUtf8(account));
    map[AccountField := lib.b64encode(sealed.ciphertext),
        SaltField := lib.b64encode(rnd.salt),
        NonceField := lib.b64encode(rnd.nonce),
        TagField := lib.b64encode(sealed.tag)]
  }

  /** `b64decode(encrypted_account[name])`: a KeyError when the field is absent. */
  function Field(lib: Lib, rec: EncRecord, name: string): (r: Result<Bytes, Exception>)
    ensures name !in rec <==> r == Failure(KeyError(name))
  {
    if name !in rec then Failure(KeyError(name))
    else lib.b64decode(rec[name]).ToResult(Base64Error)
  }

  /** `decrypt(encrypted_account, password)`: the four fields are read in order, the key is
      derived again from the stored salt, and the plaintext is only parsed once the tag verifies. */
  function Decrypt(lib: Lib, rec: EncRecord, password: string): (r: Result<Account, Exception>)
    ensures r.Success? ==> Fields <= rec.Keys
    ensures r.Failure? ==> !r.error.FileNotFound? && !r.error.InvalidHash?
    ensures r.Failure? && Caught(r.error) ==> r.error.KeyError? && r.error.key in Fields && r.error.key !in rec
  {
    var ciphertext :- Field(lib, rec, AccountField);
    var salt :- Field(lib, rec, SaltField);
    var nonce :- Field(lib, rec, NonceField);
    var tag :- Field(lib, rec, TagField);
    var key := DeriveKey(lib, password, salt, DecryptKdf);
    var plain :- lib.gcmOpen(key, nonce, ciphertext, tag).ToResult(MacCheckFailed);
    var text :- lib.decodeUtf8(plain).ToResult(UnicodeError);
    lib.jsonLoads(text).ToResult(JsonError)
  }

  /** `rec` is, field for field, an AES-GCM sealing of `text` under the key `encrypt` derives
      from `password` and the salt the record stores. */
  ghost predicate Authentic(lib: Lib, rec: EncRecord, password: string, text: string) {
    && Fields <= rec.Keys
    && lib.b64decode(rec[AccountField]).Some?
    && lib.b64decode(rec[SaltField]).Some?
    && lib.b64decode(rec[NonceField]).Some?
    && lib.b64decode(rec[TagField]).Some?
    && var key := DeriveKey(lib, password, lib.b64decode(rec[SaltField]).value, EncryptKdf);
       lib.gcmSeal(key, lib.b64decode(rec[NonceField]).value, lib.encodeUtf8(text))
         == Sealed(lib.b64decode(rec[AccountField]).value, lib.b64decode(rec[TagField]).value)
  }

  /** Both sides derive the record key with n = 2^14, r = 8, p = 1 and a 32-byte (AES-256) key,
      so the key is a function of the password and the stored salt alone. */
  lemma KeysAgree(lib: Lib, password: string, salt: Bytes)
    requires Lawful(lib)
    ensures DeriveKey(lib, password, salt, DecryptKdf) == DeriveKey(lib, password, salt, EncryptKdf)
    ensures EncryptKdf.n == 16384 && |DeriveKey(lib, password, salt, EncryptKdf)| == 32
  {
  }

  /** What `encrypt` stores decodes back to the ciphertext, salt, nonce and tag it produced. */
  lemma EncryptFieldsDecode(lib: Lib, account: string, masterPass: string, rnd: Entropy)
    requires Lawful(lib)
    ensures var rec := Encrypt(lib, account, masterPass, rnd);
            var sealed := lib.gcmSeal(DeriveKey(lib, masterPass, rnd.salt, EncryptKdf), rnd.nonce, lib.encodeUtf8(account));
            && Field(lib, rec, AccountField) == Success(sealed.ciphertext)
            && Field(lib, rec, SaltField) == Success(rnd.salt)
            && Field(lib, rec, NonceField) == Success(rnd.nonce)
            && Field(lib, rec, TagField) == Success(sealed.tag)
            && |Field(lib, rec, SaltField).value| == BlockSize
  {
  }

  /** A record that `encrypt` produced is an authentic sealing of its text. */
  lemma EncryptIsAuthentic(lib: Lib, account: string, masterPass: string, rnd: Entropy)
    requires Lawful(lib)
    ensures Authentic(lib, Encrypt(lib, account, masterPass, rnd), masterPass, account)
  {
    EncryptFieldsDecode(lib, account, masterPass, rnd);
  }

  /** Decryption succeeds with `a` exactly when the record authentically seals, under
      `password`, a JSON text that parses to `a`: the tag is verified before anything is returned. */
  lemma DecryptIffAuthentic(lib: Lib, rec: EncRecord, password: string, a: Account)
    requires Lawful(lib)
    ensures Decrypt(lib, rec, password) == Success(a)
        <==> exists text :: Authentic(lib, rec, password, text) && lib.jsonLoads(text) == Some(a)
  {
    if Decrypt(lib, rec, password) == Success(a) {
      var salt := lib.b64decode(rec[SaltField]).value;
      var nonce := lib.b64decode(rec[NonceField]).value;
      var key := DeriveKey(lib, password, salt, DecryptKdf);
      KeysAgree(lib, password, salt);
      var plain := lib.gcmOpen(key, nonce, lib.b64decode(rec[AccountField]).value, lib.b64decode(rec[TagField]).value).value;
      var text := lib.decodeUtf8(plain).value;
      assert Authentic(lib, rec, password, text);
    }
    if text :| Authentic(lib, rec, password, text) && lib.jsonLoads(text) == Some(a) {
      var salt := lib.b64decode(rec[SaltField]).value;
      KeysAgree(lib, password, salt);
    }
  }

  /** Round trip: decrypting what `encrypt` stored, with the same password, gives back the
      JSON text's value; for `json.dumps(a)` that is `a` itself. */
  lemma RoundTrip(lib: Lib, a: Account, masterPass: string, rnd: Entropy)
    requires Lawful(lib)
    ensures Decrypt(lib, Encrypt(lib, lib.jsonDumps(a), masterPass, rnd), masterPass) == Success(a)
  {
    EncryptIsAuthentic(lib, lib.jsonDumps(a), masterPass, rnd);
    DecryptIffAuthentic(lib, Encrypt(lib, lib.jsonDumps(a), masterPass, rnd), masterPass, a);
  }

  /** A record lacking any of the four fields never decrypts; one that `encrypt` produced and
      then lost field `f` fails with KeyError(f), before any key is derived. */
  lemma MissingFieldRaisesKeyError(lib: Lib, account: string, masterPass: string, rnd: Entropy, f: string)
    requires Lawful(lib)
    requires f in Fields
    ensures Decrypt(lib, Encrypt(lib, account, masterPass, rnd) - {f}, masterPass) == Failure(KeyError(f))
  {
    EncryptFieldsDecode(lib, account, masterPass, rnd);
  }
}

=== FILE: escape.dfy ===
/** `escapeHtml` (static/javascript/vault.js): two global replacements, `"` by `&quot;` and then
    `'` by `&#039;`. No other character, `&`, `<` and `>` included, is touched. */
module Escape {

  const Quot := "&quot;"
  const Apos := "&#039;"

  /** `s.replace(/c/g, rep)`: every occurrence of `c`, left to right, becomes `rep`. */
  function ReplaceAll(s: string, c: char, rep: string): string {
    if s == [] then [] else (if s[0] == c then rep else [s[0]]) + ReplaceAll(s[1..], c, rep)
  }

  /** The escape works character by character: `"` becomes `&quot;`, `'` becomes `&#039;`,
      and every other character is copied, in order. */
  function EscapeHtml(s: string): (r: string)
    ensures r == EscapeEach(s)
  {
    ChainedIsPerCharacter(s);
    ReplaceAll(ReplaceAll(s, '"', Quot), '\'', Apos)
  }

  /** The escape of one character. */
  function EscapeChar(c: char): string {
    if c == '"' then Quot else if c == '\'' then Apos else [c]
  }

  /** A one-pass reference: each character replaced by its escape, in order. */
  function EscapeEach(s: string): string {
    if s == [] then [] else EscapeChar(s[0]) + EscapeEach(s[1..])
  }

  predicate QuoteFree(s: string) {
    forall i :: 0 <= i < |s| ==> s[i] != '"' && s[i] != '\''
  }

  /** The number of quote characters of either kind. */
  function Quotes(s: string): nat {
    if s == [] then 0 else (if s[0] == '"' || s[0] == '\'' then 1 else 0) + Quotes(s[1..])
  }

  lemma {:induction false} ReplaceAllAppend(a: string, b: string, c: char, rep: string)
    ensures ReplaceAll(a + b, c, rep) == ReplaceAll(a, c, rep) + ReplaceAll(b, c, rep)
  {
    if a == [] {
      assert a + b == b;
    } else {
      assert (a + b)[1..] == a[1..] + b;
      ReplaceAllAppend(a[1..], b, c, rep);
    }
  }

  /** Replacing a character that does not occur changes nothing. */
  lemma {:induction false} ReplaceAllAbsent(s: string, c: char, rep: string)
    requires c !in s
    ensures ReplaceAll(s, c, rep) == s
  {
    if s != [] {
      assert s == [s[0]] + s[1..];
      ReplaceAllAbsent(s[1..], c, rep);
    }
  }

  /** The two chained replacements escape every character on its own, in order. */
  lemma {:induction false} ChainedIsPerCharacter(s: string)
    ensures ReplaceAll(ReplaceAll(s, '"', Quot), '\'', Apos) == EscapeEach(s)
  {
    if s != [] {
      var head := if s[0] == '"' then Quot else [s[0]];
      assert ReplaceAll(s, '"', Quot) == head + ReplaceAll(s[1..], '"', Quot);
      ReplaceAllAppend(head, ReplaceAll(s[1..], '"', Quot), '\'', Apos);
      if s[0] == '"' {
        ReplaceAllAbsent(Quot, '\'', Apos);
      } else {
        assert ReplaceAll(head, '\'', Apos) == EscapeChar(s[0]);
      }
      ChainedIsPerCharacter(s[1..]);
    }
  }

  /** The reference escape leaves no quote of either kind. */
  lemma {:induction false} EscapeEachQuoteFree(s: string)
    ensures QuoteFree(EscapeEach(s))
  {
    if s != [] {
      EscapeEachQuoteFree(s[1..]);
      var e := EscapeChar(s[0]);
      assert QuoteFree(e);
      assert EscapeEach(s) == e + EscapeEach(s[1..]);
    }
  }

  /** No `"` and no `'` survive escaping, so the result can sit inside either kind of
      quoted HTML attribute without closing it. */
  lemma NoQuotesSurvive(s: string)
    ensures '"' !in EscapeHtml(s) && '\'' !in EscapeHtml(s)
  {
    EscapeEachQuoteFree(s);
  }

  /** Every quote grows the string by five characters; nothing else changes its length. */
  lemma EscapeLength(s: string)
    ensures |EscapeHtml(s)| == |s| + 5 * Quotes(s)
  {
    EscapeEachLength(s);
  }

  lemma {:induction false} EscapeEachLength(s: string)
    ensures |EscapeEach(s)| == |s| + 5 * Quotes(s)
  {
    if s != [] {
      EscapeEachLength(s[1..]);
    }
  }

  /** On a string without quotes escaping is the identity. */
  lemma EscapeQuoteFreeIdentity(s: string)
    requires QuoteFree(s)
    ensures EscapeHtml(s) == s
  {
    ReplaceAllAbsent(s, '"', Quot);
    ReplaceAllAbsent(s, '\'', Apos);
  }

  /** Escaping twice is escaping once. */
  lemma EscapeIdempotent(s: string)
    ensures EscapeHtml(EscapeHtml(s)) == EscapeHtml(s)
  {
    EscapeEachQuoteFree(s);
    EscapeQuoteFreeIdentity(EscapeHtml(s));
  }

  /** Neither replacement introduces a quote, so performing them in the other order gives the
      same result. */
  lemma ReplacementOrderIrrelevant(s: string)
    ensures ReplaceAll(ReplaceAll(s, '\'', Apos), '"', Quot) == EscapeHtml(s)
  {
    SwappedIsPerCharacter(s);
  }

  lemma {:induction false} SwappedIsPerCharacter(s: string)
    ensures ReplaceAll(ReplaceAll(s, '\'', Apos), '"', Quot) == EscapeEach(s)
  {
    if s != [] {
      var head := if s[0] == '\'' then Apos else [s[0]];
      assert ReplaceAll(s, '\'', Apos) == head + ReplaceAll(s[1..], '\'', Apos);
      ReplaceAllAppend(head, ReplaceAll(s[1..], '\'', Apos), '"', Quot);
      if s[0] == '\'' {
        ReplaceAllAbsent(Apos, '"', Quot);
      } else {
        assert ReplaceAll(head, '"', Quot) == EscapeChar(s[0]);
      }
      SwappedIsPerCharacter(s[1..]);
    }
  }

  const Amp := "&amp;"

  /** How the browser reads an attribute value back (`dataset.name` of the edit button), for
      values without CR or NUL: the character references the escapes produce, `&quot;`,
      `&#039;` and `&amp;`, are decoded; every other character is kept. */
  function DecodeAttribute(s: string): string
    decreases |s|
  {
    if s == [] then []
    else if Quot <= s then ['"'] + DecodeAttribute(s[|Quot|..])
    else if Apos <= s then ['\''] + DecodeAttribute(s[|Apos|..])
    else if Amp <= s then ['&'] + DecodeAttribute(s[|Amp|..])
    else [s[0]] + DecodeAttribute(s[1..])
  }

  /** As written, an account field holding the text `&quot;` does not survive the attribute:
      the edit form is filled with `"` instead, and saving stores the changed value. */
  lemma AttributeRoundTripFails()
    ensures EscapeHtml(Quot) == Quot
    ensures DecodeAttribute(EscapeHtml(Quot)) == "\""
    ensures DecodeAttribute(EscapeHtml(Quot)) != Quot
  {
    EscapeQuoteFreeIdentity(Quot);
    assert Quot <= Quot;
    assert Quot[|Quot|..] == [];
  }

  /** `escapeHtml` with `&` escaped first, as attribute escaping requires. */
  function EscapeAttribute(s: string): string {
    ReplaceAll(ReplaceAll(ReplaceAll(s, '&', Amp), '"', Quot), '\'', Apos)
  }

  function EscapeAttributeChar(c: char): string {
    if c == '&' then Amp else EscapeChar(c)
  }

  function EscapeAttributeEach(s: string): string {
    if s == [] then [] else EscapeAttributeChar(s[0]) + EscapeAttributeEach(s[1..])
  }

  /** The corrected escape also works character by character. */
  lemma {:induction false} EscapeAttributeIsPerCharacter(s: string)
    ensures EscapeAttribute(s) == EscapeAttributeEach(s)
  {
    if s != [] {
      var c := s[0];
      var amp := if c == '&' then Amp else [c];
      assert ReplaceAll(s, '&', Amp) == amp + ReplaceAll(s[1..], '&', Amp);
      ReplaceAllAppend(amp, ReplaceAll(s[1..], '&', Amp), '"', Quot);
      var quot := if c == '"' then Quot else amp;
      if c == '&' {
        ReplaceAllAbsent(Amp, '"', Quot);
      } else {
        assert ReplaceAll(amp, '"', Quot) == quot;
      }
      ReplaceAllAppend(quot, ReplaceAll(ReplaceAll(s[1..], '&', Amp), '"', Quot), '\'', Apos);
      if c == '&' {
        ReplaceAllAbsent(Amp, '\'', Apos);
      } else if c == '"' {
        ReplaceAllAbsent(Quot, '\'', Apos);
      } else {
        assert ReplaceAll(quot, '\'', Apos) == EscapeAttributeChar(c);
      }
      EscapeAttributeIsPerCharacter(s[1..]);
    }
  }

  /** Decoding an escaped character followed by anything decodes that character first. */
  lemma DecodeEscapedChar(c: char, rest: string)
    ensures DecodeAttribute(EscapeAttributeChar(c) + rest) == [c] + DecodeAttribute(rest)
  {
    var e := EscapeAttributeChar(c) + rest;
    if c == '&' {
      assert e[1] == 'a';
      assert e[..|Amp|] == Amp;
      assert e[|Amp|..] == rest;
    } else if c == '"' {
      assert e[..|Quot|] == Quot;
      assert e[|Quot|..] == rest;
    } else if c == '\'' {
      assert e[1] == '#';
      assert e[..|Apos|] == Apos;
      assert e[|Apos|..] == rest;
    } else {
      assert e[0] == c;
      assert e[1..] == rest;
    }
  }

  /** With `&` escaped, every string survives the modelled attribute decoding: reading back
      gives exactly the value that was escaped. (An HTML parser also rewrites CR, CRLF and NUL,
      which `DecodeAttribute` does not model.) */
  lemma AttributeRoundTrip(s: string)
    ensures DecodeAttribute(EscapeAttribute(s)) == s
  {
    EscapeAttributeIsPerCharacter(s);
    EachRoundTrip(s);
  }

  lemma {:induction false} EachRoundTrip(s: string)
    ensures DecodeAttribute(EscapeAttributeEach(s)) == s
  {
    if s != [] {
      DecodeEscapedChar(s[0], EscapeAttributeEach(s[1..]));
      EachRoundTrip(s[1..]);
      assert [s[0]] + s[1..] == s;
    }
  }
}

=== FILE: foreign.dfy ===
/** The library calls the engine makes and cannot be seen into: UTF-8 coding, base64
    (section 4 of RFC 4648), scrypt (section 6 of RFC 7914), AES-GCM authenticated
    encryption (sections 7.1 and 7.2 of NIST SP 800-38D), JSON and bcrypt.
    Each one is a field of `Lib`, an uninterpreted function; `Lawful` collects the
    laws the model relies on. Nothing else about them is assumed. */
module Foreign {
  import opened Results

  newtype byte = x: int | 0 <= x < 256

  type Bytes = seq<byte>

  /** The plaintext record the routes build: `{'name': …, 'url': …, 'password': …}`. */
  datatype Account = Account(name: string, url: string, password: string)

  /** scrypt cost parameters: CPU/memory cost `n`, block size `r`, parallelism `p`, key length. */
  datatype ScryptParams = ScryptParams(n: nat, r: nat, p: nat, dklen: nat)

  /** What `encrypt_and_digest` returns. */
  datatype Sealed = Sealed(ciphertext: Bytes, tag: Bytes)

  datatype Lib = Lib(
    encodeUtf8: string -> Bytes,                          // str.encode('utf-8')
    decodeUtf8: Bytes -> Option<string>,                  // bytes.decode('utf-8'); None raises
    b64encode: Bytes -> string,                           // b64encode(…).decode('utf-8')
    b64decode: string -> Option<Bytes>,                   // b64decode; None raises binascii.Error
    scrypt: (Bytes, Bytes, ScryptParams) -> Bytes,        // hashlib.scrypt(password, salt, …)
    gcmSeal: (Bytes, Bytes, Bytes) -> Sealed,             // key, nonce, plaintext
    gcmOpen: (Bytes, Bytes, Bytes, Bytes) -> Option<Bytes>, // key, nonce, ciphertext, tag; None: MAC check failed
    jsonDumps: Account -> string,                         // json.dumps
    jsonLoads: string -> Option<Account>,                 // json.loads; None raises
    hashpw: (Bytes, string) -> string,                    // bcrypt.hashpw(password, salt).decode()
    checkpw: (Bytes, string) -> Option<bool>              // bcrypt.checkpw(password, hash.encode()); None raises
  )

  /** The laws of the libraries: each decoder inverts its encoder, strict UTF-8 decoding only
      accepts what encoding produces, scrypt yields `dklen` bytes, AES-GCM opens what it sealed
      and opens nothing that is not the sealing of what it returns (tag verification), JSON
      round-trips an account, bcrypt accepts a password against its own hash, and bcrypt rejects
      the empty hash as an invalid salt (`checkpw` raises ValueError). */
  ghost predicate Lawful(lib: Lib) {
    && (forall s :: lib.decodeUtf8(lib.encodeUtf8(s)) == Some(s))
    && (forall b :: lib.decodeUtf8(b).Some? ==> lib.encodeUtf8(lib.decodeUtf8(b).value) == b)
    && (forall b :: lib.b64decode(lib.b64encode(b)) == Some(b))
    && (forall pw, salt, prm :: |lib.scrypt(pw, salt, prm)| == prm.dklen)
    && (forall key, nonce, m :: lib.gcmOpen(key, nonce, lib.gcmSeal(key, nonce, m).ciphertext, lib.gcmSeal(key, nonce, m).tag) == Some(m))
    && (forall key, nonce, c, t :: lib.gcmOpen(key, nonce, c, t).Some? ==>
          lib.gcmSeal(key, nonce, lib.gcmOpen(key, nonce, c, t).value) == Sealed(c, t))
    && (forall a :: lib.jsonLoads(lib.jsonDumps(a)) == Some(a))
    && (forall pw, salt :: lib.checkpw(pw, lib.hashpw(pw, salt)) == Some(true))
    && (forall pw :: lib.checkpw(pw, "") == None)
  }
}

=== FILE: ids.dfy ===
/** Account identifiers (`generate_id` in scripts/functions.py): `length` independent draws
    from `ascii_letters + digits`. The random choices are the oracle `draw`: the i-th call of
    `random.choice` picks `Alphabet[draw(i) % |Alphabet|]`. */
module Ids {

  /** The `count` consecutive ASCII characters from code `start`. */
  function CharRange(start: int, count: nat): (r: string)
    requires 0 <= start && start + count <= 128
    ensures |r| == count
    ensures forall i :: 0 <= i < count ==> r[i] == (start + i) as char
  {
    seq(count, i requires 0 <= i < count => (start + i) as char)
  }

  /** `string.ascii_letters + string.digits`: a–z, A–Z, then 0–9. */
  const Alphabet: string := CharRange('a' as int, 26) + CharRange('A' as int, 26) + CharRange('0' as int, 10)

  predicate IsAsciiAlnum(c: char) {
    ('a' <= c <= 'z') || ('A' <= c <= 'Z') || ('0' <= c <= '9')
  }

  /** The alphabet holds 62 characters and they are exactly the ASCII letters and digits. */
  lemma AlphabetIsAlnum(c: char)
    ensures |Alphabet| == 62
    ensures c in Alphabet <==> IsAsciiAlnum(c)
  {
    if IsAsciiAlnum(c) {
      if 'a' <= c <= 'z' {
        assert Alphabet[c as int - 'a' as int] == c;
      } else if 'A' <= c <= 'Z' {
        assert Alphabet[26 + c as int - 'A' as int] == c;
      } else {
        assert Alphabet[52 + c as int - '0' as int] == c;
      }
    }
  }

  function GenerateId(length: int, draw: nat -> nat): (id: string)
    ensures |id| == if length < 0 then 0 else length
    ensures forall i :: 0 <= i < |id| ==> IsAsciiAlnum(id[i])
  {
    var n := if length < 0 then 0 else length;
    var id := seq(n, i requires 0 <= i < n => Alphabet[draw(i) % |Alphabet|]);
    assert forall i :: 0 <= i < |id| ==> id[i] in Alphabet;
    forall i | 0 <= i < |id| ensures IsAsciiAlnum(id[i]) {
      AlphabetIsAlnum(id[i]);
    }
    id
  }

  /** The position of `c` in the alphabet. */
  function IndexOf(c: char): (k: nat)
    requires IsAsciiAlnum(c)
    ensures k < |Alphabet| && Alphabet[k] == c
  {
    AlphabetIsAlnum(c);
    if 'a' <= c <= 'z' then c as int - 'a' as int
    else if 'A' <= c <= 'Z' then 26 + c as int - 'A' as int
    else 52 + c as int - '0' as int
  }

  /** The random pick that yields character `i` of `s`. */
  function PickFor(s: string, i: nat): nat {
    if i < |s| && IsAsciiAlnum(s[i]) then IndexOf(s[i]) else 0
  }

  /** Every string of ASCII letters and digits is a possible identifier: some sequence of
      random choices produces it, so the generated ids range over exactly these strings. */
  lemma EveryAlnumStringIsReachable(s: string)
    requires forall i :: 0 <= i < |s| ==> IsAsciiAlnum(s[i])
    ensures exists draw: nat -> nat :: GenerateId(|s|, draw) == s
  {
    var draw := (i: nat) => PickFor(s, i);
    var id := GenerateId(|s|, draw);
    forall i | 0 <= i < |s|
      ensures id[i] == s[i]
    {
      var k := IndexOf(s[i]);
      assert draw(i) == k;
      assert k % |Alphabet| == k;
    }
    assert id == s;
  }
}

=== FILE: lifecycle.dfy ===
/** Properties that relate several vault operations: what `load_db` sees after each mutation,
    idempotence, what the account operations leave alone, and the all-or-nothing load. */
module Lifecycle {
  import opened Results
  import opened Errors
  import opened Foreign
  import opened Crypt
  import opened Vault
  import Ids

  /** When every record that fails, fails with a caught exception (a missing field, say) and at
      least one does, `load_db` returns `{}` whatever the iteration order: no record is kept. */
  lemma LoadDbCaughtFailureEmpties(lib: Lib, d: Document, masterPass: string, order: seq<string>, bad: string)
    requires Enumerates(order, AccountsOf(d).Keys)
    requires bad in AccountsOf(d) && Decrypt(lib, AccountsOf(d)[bad], masterPass).Failure?
    requires forall k :: k in AccountsOf(d) && Decrypt(lib, AccountsOf(d)[k], masterPass).Failure? ==>
               Caught(Decrypt(lib, AccountsOf(d)[k], masterPass).error)
    ensures LoadDb(lib, Stored(d), masterPass, order) == Success(map[])
  {
  }

  /** When every failing record fails with an escaping exception (a MAC check failure, say) and
      at least one does, `load_db` raises the exception of one of them. */
  lemma LoadDbUncaughtFailureRaises(lib: Lib, d: Document, masterPass: string, order: seq<string>, bad: string)
    requires Enumerates(order, AccountsOf(d).Keys)
    requires bad in AccountsOf(d) && Decrypt(lib, AccountsOf(d)[bad], masterPass).Failure?
    requires forall k :: k in AccountsOf(d) && Decrypt(lib, AccountsOf(d)[k], masterPass).Failure? ==>
               !Caught(Decrypt(lib, AccountsOf(d)[k], masterPass).error)
    ensures var r := LoadDb(lib, Stored(d), masterPass, order);
            r.Failure? && exists k :: k in AccountsOf(d) && Decrypt(lib, AccountsOf(d)[k], masterPass) == Failure(r.error)
  {
  }

  /** The record first in iteration order to fail decides `load_db`: a caught exception (a
      missing field) gives `{}`, any other exception escapes, whatever follows it. */
  lemma LoadDbFirstFailureDecides(lib: Lib, d: Document, masterPass: string, order: seq<string>, i: nat, e: Exception)
    requires Enumerates(order, AccountsOf(d).Keys)
    requires i < |order| && Decrypt(lib, AccountsOf(d)[order[i]], masterPass) == Failure(e)
    requires forall j :: 0 <= j < i ==> Decrypt(lib, AccountsOf(d)[order[j]], masterPass).Success?
    ensures LoadDb(lib, Stored(d), masterPass, order) == if Caught(e) then Success(map[]) else Failure(e)
  {
  }

  /** A vault whose records all hold the four fields loads fully or raises: `{}` comes back only
      when every record decrypts (an empty vault included). A wrong master password therefore
      makes `load_db` raise the failed tag check, not return `{}`. */
  lemma CompleteRecordsNeverEmpty(lib: Lib, d: Document, masterPass: string, order: seq<string>)
    requires Enumerates(order, AccountsOf(d).Keys)
    requires forall k :: k in AccountsOf(d) ==> Fields <= AccountsOf(d)[k].Keys
    ensures LoadDb(lib, Stored(d), masterPass, order).Success? <==> AllDecrypt(lib, AccountsOf(d), masterPass)
  {
    var accounts := AccountsOf(d);
    if !AllDecrypt(lib, accounts, masterPass) {
      var bad :| bad in accounts && !Decrypt(lib, accounts[bad], masterPass).Success?;
      var r := DecryptInOrder(lib, accounts, masterPass, order);
      var j :| 0 <= j < |order| && order[j] == bad;
      assert !Decrypt(lib, accounts[order[j]], masterPass).Success?;
      var i :| 0 <= i < |order| && Decrypt(lib, accounts[order[i]], masterPass) == Failure(r.error);
      assert !Caught(r.error);
    }
  }

  /** On a non-empty vault of complete records `load_db` returns every record or raises; it
      never returns `{}`. */
  lemma NonEmptyCompleteVaultNeverEmpty(lib: Lib, d: Document, masterPass: string, order: seq<string>)
    requires Enumerates(order, AccountsOf(d).Keys)
    requires forall k :: k in AccountsOf(d) ==> Fields <= AccountsOf(d)[k].Keys
    requires AccountsOf(d) != map[]
    ensures LoadDb(lib, Stored(d), masterPass, order) != Success(map[])
  {
    var accounts := AccountsOf(d);
    CompleteRecordsNeverEmpty(lib, d, masterPass, order);
    var r := LoadDb(lib, Stored(d), masterPass, order);
    if r.Success? {
      var k :| k in accounts;
      assert k in DecryptedAll(lib, accounts, masterPass);
    }
  }

  /** A `user` entry without a `password` hands bcrypt the empty hash, which it rejects with a
      ValueError that `password_check` does not catch. */
  lemma MissingHashRaises(lib: Lib, d: Document, pw: string)
    requires Lawful(lib)
    requires d.user.Some? && PasswordKey !in d.user.value
    ensures PasswordCheck(lib, Stored(d), pw) == Failure(InvalidHash)
  {
  }

  /** A stored `user` whose password entry is the bcrypt hash of `pw` (under any salt) accepts
      `pw`, whatever else the document holds. */
  lemma HashedPasswordAccepted(lib: Lib, d: Document, pw: string, salt: string)
    requires Lawful(lib)
    requires d.user.Some? && PasswordKey in d.user.value
    requires d.user.value[PasswordKey] == lib.hashpw(lib.encodeUtf8(pw), salt)
    ensures PasswordCheck(lib, Stored(d), pw) == Success(true)
  {
  }

  /** After `initialize_db` on a fresh location, `password_check` accepts the password it was
      given; on an existing file it changes nothing, so initializing twice equals initializing once. */
  lemma InitializeThenCheck(lib: Lib, store: Store, password: string, other: string, salt1: string, salt2: string)
    requires Lawful(lib)
    ensures store == NoFile ==>
              PasswordCheck(lib, Stored(InitializeDb(lib, store, password, salt1).doc), password) == Success(true)
    ensures var s1 := After(store, Success(InitializeDb(lib, store, password, salt1)));
            After(s1, Success(InitializeDb(lib, s1, other, salt2))) == s1
  {
  }

  /** Editing, adding and deleting accounts never touch the `user` entry, so the master password
      check gives the same verdict before and after. */
  lemma AccountOperationsKeepPasswordCheck(lib: Lib, store: Store, password: string, id: string, a: Account,
                                           masterPass: string, idLength: int, draw: nat -> nat, rnd: Entropy)
    ensures PasswordCheck(lib, After(store, EditAccount(lib, store, id, a, masterPass, rnd)), password) == PasswordCheck(lib, store, password)
    ensures PasswordCheck(lib, After(store, AddAccount(lib, store, idLength, masterPass, a, draw, rnd)), password) == PasswordCheck(lib, store, password)
    ensures PasswordCheck(lib, After(store, DeleteAccount(store, id)), password) == PasswordCheck(lib, store, password)
  {
  }

  /** Deleting twice is deleting once: the second call finds the id absent and writes nothing. */
  lemma DeleteIsIdempotent(store: Store, id: string)
    ensures var s1 := After(store, DeleteAccount(store, id));
            DeleteAccount(s1, id) == if s1.Unparsable? then Failure(JsonError) else Success(Unchanged)
  {
  }

  /** The decrypted view of a map that differs from a fully decryptable one at `id` only. */
  lemma DecryptedAfterUpdate(lib: Lib, before: map<string, EncRecord>, id: string, rec: EncRecord, a: Account, masterPass: string)
    requires AllDecrypt(lib, before, masterPass)
    requires Decrypt(lib, rec, masterPass) == Success(a)
    ensures AllDecrypt(lib, before[id := rec], masterPass)
    ensures DecryptedAll(lib, before[id := rec], masterPass) == DecryptedAll(lib, before, masterPass)[id := a]
  {
  }

  /** A document whose every record decrypts loads to its full decrypted view. */
  lemma LoadFullyDecryptable(lib: Lib, d: Document, masterPass: string, order: seq<string>)
    requires AllDecrypt(lib, AccountsOf(d), masterPass)
    requires Enumerates(order, AccountsOf(d).Keys)
    ensures LoadDb(lib, Stored(d), masterPass, order) == Success(DecryptedAll(lib, AccountsOf(d), masterPass))
  {
  }

  /** Add then load: the new account is listed under the generated id, decrypted to what was added, beside everything that was there (save an entry that a
      colliding id overwrote). */
  lemma AddThenLoad(lib: Lib, d: Document, idLength: int, masterPass: string, a: Account, draw: nat -> nat, rnd: Entropy, order: seq<string>)
    requires Lawful(lib)
    requires AllDecrypt(lib, AccountsOf(d), masterPass)
    requires Enumerates(order, AccountsOf(d).Keys + {Ids.GenerateId(idLength, draw)})
    ensures var s := After(Stored(d), AddAccount(lib, Stored(d), idLength, masterPass, a, draw, rnd));
            LoadDb(lib, s, masterPass, order)
              == Success(DecryptedAll(lib, AccountsOf(d), masterPass)[Ids.GenerateId(idLength, draw) := a])
  {
    var id := Ids.GenerateId(idLength, draw);
    var rec := Encrypt(lib, lib.jsonDumps(a), masterPass, rnd);
    var updated := AccountsOf(d)[id := rec];
    var s := After(Stored(d), AddAccount(lib, Stored(d), idLength, masterPass, a, draw, rnd));
    assert s == Stored(d.(accounts := Some(updated)));
    RoundTrip(lib, a, masterPass, rnd);
    DecryptedAfterUpdate(lib, AccountsOf(d), id, rec, a, masterPass);
    LoadFullyDecryptable(lib, d.(accounts := Some(updated)), masterPass, order);
  }

  /** Edit then load: the id is kept and now decrypts to the edited account; nothing else changes. */
  lemma EditThenLoad(lib: Lib, d: Document, id: string, a: Account, masterPass: string, rnd: Entropy, order: seq<string>)
    requires Lawful(lib)
    requires d.accounts.Some?
    requires AllDecrypt(lib, AccountsOf(d), masterPass)
    requires Enumerates(order, AccountsOf(d).Keys + {id})
    ensures var s := After(Stored(d), EditAccount(lib, Stored(d), id, a, masterPass, rnd));
            LoadDb(lib, s, masterPass, order) == Success(DecryptedAll(lib, AccountsOf(d), masterPass)[id := a])
  {
    var rec := Encrypt(lib, lib.jsonDumps(a), masterPass, rnd);
    var updated := AccountsOf(d)[id := rec];
    var s := After(Stored(d), EditAccount(lib, Stored(d), id, a, masterPass, rnd));
    assert s == Stored(d.(accounts := Some(updated)));
    RoundTrip(lib, a, masterPass, rnd);
    DecryptedAfterUpdate(lib, AccountsOf(d), id, rec, a, masterPass);
    LoadFullyDecryptable(lib, d.(accounts := Some(updated)), masterPass, order);
  }

  /** Removing one record from a fully decryptable map removes exactly its decryption. */
  lemma DecryptedAfterRemove(lib: Lib, before: map<string, EncRecord>, id: string, masterPass: string)
    requires AllDecrypt(lib, before, masterPass)
    ensures AllDecrypt(lib, before - {id}, masterPass)
    ensures DecryptedAll(lib, before - {id}, masterPass) == DecryptedAll(lib, before, masterPass) - {id}
  {
  }

  /** A delete leaves a parsed document whose accounts are the old ones without `id`. */
  lemma DeleteLeavesRest(d: Document, id: string)
    ensures After(Stored(d), DeleteAccount(Stored(d), id)).Stored?
    ensures AccountsOf(After(Stored(d), DeleteAccount(Stored(d), id)).doc) == AccountsOf(d) - {id}
  {
    if id !in AccountsOf(d) {
      assert AccountsOf(d) - {id} == AccountsOf(d);
    }
  }

  /** Delete then load: exactly `id` disappears from the decrypted view. */
  lemma DeleteThenLoad(lib: Lib, d: Document, id: string, masterPass: string, order: seq<string>)
    requires AllDecrypt(lib, AccountsOf(d), masterPass)
    requires Enumerates(order, AccountsOf(d).Keys - {id})
    ensures After(Stored(d), DeleteAccount(Stored(d), id)).Stored?
    ensures AccountsOf(After(Stored(d), DeleteAccount(Stored(d), id)).doc) == AccountsOf(d) - {id}
    ensures LoadDb(lib, After(Stored(d), DeleteAccount(Stored(d), id)), masterPass, order)
              == Success(DecryptedAll(lib, AccountsOf(d), masterPass) - {id})
  {
    DeleteLeavesRest(d, id);
    DecryptedAfterRemove(lib, AccountsOf(d), id, masterPass);
    var s := After(Stored(d), DeleteAccount(Stored(d), id));
    LoadFullyDecryptable(lib, s.doc, masterPass, order);
  }

  /** A vault with no accounts, after one add, loads to exactly the added account under the
      generated id. */
  lemma AddToEmptyThenLoad(lib: Lib, d: Document, idLength: int, masterPass: string, a: Account, draw: nat -> nat, rnd: Entropy)
    requires Lawful(lib)
    requires d.accounts == Some(map[])
    ensures var id := Ids.GenerateId(idLength, draw);
            var s := After(Stored(d), AddAccount(lib, Stored(d), idLength, masterPass, a, draw, rnd));
            && s.Stored? && AccountsOf(s.doc).Keys == {id}
            && LoadDb(lib, s, masterPass, [id]) == Success(map[id := a])
  {
    var id := Ids.GenerateId(idLength, draw);
    var empty: map<string, EncRecord> := map[];
    assert AccountsOf(d) == empty;
    assert DecryptedAll(lib, empty, masterPass) == map[];
    assert AccountsOf(d).Keys + {id} == {id};
    assert Enumerates([id], {id});
    AddThenLoad(lib, d, idLength, masterPass, a, draw, rnd, [id]);
  }

  /** No collision check: when the generated id is already taken, the earlier record is
      replaced and can no longer be loaded. */
  lemma AddOverwritesOnCollision(lib: Lib, d: Document, idLength: int, masterPass: string, a: Account, draw: nat -> nat, rnd: Entropy)
    requires Ids.GenerateId(idLength, draw) in AccountsOf(d)
    ensures var s := After(Stored(d), AddAccount(lib, Stored(d), idLength, masterPass, a, draw, rnd));
            && AccountsOf(s.doc).Keys == AccountsOf(d).Keys
            && AccountsOf(s.doc)[Ids.GenerateId(idLength, draw)] == Encrypt(lib, lib.jsonDumps(a), masterPass, rnd)
  {
  }
}

=== FILE: results.dfy ===
/** Failure-compatible wrappers used by every module of the vault model. */
module Results {

  /** A value that may be absent: a missing dictionary entry or a library call that refuses its input. */
  datatype Option<+T> = None | Some(value: T) {

    /** The value, or `default` when absent (Python's `dict.get(key, default)`). */
    function GetOr(default: T): T {
      match this
      case Some(v) => v
      case None => default
    }

    /** Turns absence into the failure `error`. */
    function ToResult<E>(error: E): Result<T, E> {
      match this
      case Some(v) => Success(v)
      case None => Failure(error)
    }
  }

  /** Either a value or the exception a Python call raises instead of returning. */
  datatype Result<+T, +E> = Success(value: T) | Failure(error: E) {

    predicate IsFailure() {
      Failure?
    }

    function PropagateFailure<U>(): Result<U, E>
      requires Failure?
    {
      Failure(error)
    }

    function Extract(): T
      requires Success?
    {
      value
    }
  }
}

/** The Python exceptions the vault engine can raise, and which of them its handlers swallow. */
module Errors {

  datatype Exception =
    | FileNotFound           // IOError from open() when the database file is absent
    | KeyError(key: string)  // subscript of a dictionary that lacks `key`
    | Base64Error            // binascii.Error (a ValueError) from b64decode
    | MacCheckFailed         // ValueError from AES-GCM decrypt_and_verify
    | UnicodeError           // UnicodeDecodeError (a ValueError) from bytes.decode
    | JsonError              // json.JSONDecodeError (a ValueError) from json.loads
    | InvalidHash            // ValueError from bcrypt.checkpw on a malformed stored hash

  /** The engine's handlers catch `(IOError, KeyError, TypeError)`; every ValueError escapes.
      TypeError only arises from document shapes this model does not represent. */
  predicate Caught(e: Exception) {
    e.FileNotFound? || e.KeyError?
  }
}

=== FILE: search.dfy ===
/** The search bar of static/javascript/vault.js: on every input, each table row that has a third
    cell (the URL) is shown exactly when its lower-cased text contains the lower-cased search
    term; other rows are left as they were. Lower-casing is modelled on ASCII only. */
module Search {

  /** `toLowerCase` on ASCII: A–Z become a–z. */
  function LowerChar(c: char): char {
    if 'A' <= c <= 'Z' then (c as int + 32) as char else c
  }

  function Lower(s: string): (r: string)
    ensures |r| == |s|
    ensures forall i :: 0 <= i < |s| ==> r[i] == LowerChar(s[i])
  {
    seq(|s|, i requires 0 <= i < |s| => LowerChar(s[i]))
  }

  /** `needle` occurs in `hay` starting at position `i`. */
  ghost predicate OccursAt(hay: string, needle: string, i: int) {
    0 <= i && i + |needle| <= |hay| && hay[i..i + |needle|] == needle
  }

  /** `hay.includes(needle)`: tries each starting position from the left. */
  function Includes(hay: string, needle: string): (found: bool)
    ensures found <==> exists i :: OccursAt(hay, needle, i)
    decreases |hay|
  {
    if |needle| <= |hay| && hay[..|needle|] == needle then
      assert OccursAt(hay, needle, 0);
      true
    else if hay == [] then false
    else
      var rest := Includes(hay[1..], needle);
      assert forall i :: OccursAt(hay[1..], needle, i) ==> OccursAt(hay, needle, i + 1) by {
        forall i | OccursAt(hay[1..], needle, i) ensures OccursAt(hay, needle, i + 1) {
          assert hay[1..][i..i + |needle|] == hay[i + 1..i + 1 + |needle|];
        }
      }
      assert forall i :: OccursAt(hay, needle, i) ==> i >= 1 && OccursAt(hay[1..], needle, i - 1) by {
        forall i | OccursAt(hay, needle, i) ensures i >= 1 && OccursAt(hay[1..], needle, i - 1) {
          assert hay[1..][i - 1..i - 1 + |needle|] == hay[i..i + |needle|];
        }
      }
      rest
  }

  /** `style.display`: `''` shows the row, `'none'` hides it. */
  datatype Display = Shown | Hidden

  /** A table row: the text content of its cells and its display state. */
  datatype Row = Row(cells: seq<string>, display: Display)

  /** The handler body for one row, with the term already lower-cased. */
  function FilterRow(row: Row, term: string): Row {
    if |row.cells| < 3 then row
    else row.(display := if Includes(Lower(row.cells[2]), term) then Shown else Hidden)
  }

  /** The `input` handler over all rows of `#accountsTable`. */
  function SearchRows(rows: seq<Row>, searchBar: string): (r: seq<Row>)
    ensures |r| == |rows|
    ensures forall i :: 0 <= i < |rows| ==> r[i].cells == rows[i].cells
    ensures forall i :: 0 <= i < |rows| && |rows[i].cells| < 3 ==> r[i] == rows[i]
    ensures forall i :: 0 <= i < |rows| && |rows[i].cells| >= 3 ==>
              (r[i].display == Shown <==> exists k :: OccursAt(Lower(rows[i].cells[2]), Lower(searchBar), k))
  {
    var term := Lower(searchBar);
    seq(|rows|, i requires 0 <= i < |rows| => FilterRow(rows[i], term))
  }

  /** An empty search bar shows every row that has a URL cell. */
  lemma EmptySearchShowsAll(rows: seq<Row>)
    ensures forall i :: 0 <= i < |rows| && |rows[i].cells| >= 3 ==> SearchRows(rows, "")[i].display == Shown
  {
    forall i | 0 <= i < |rows| && |rows[i].cells| >= 3
      ensures SearchRows(rows, "")[i].display == Shown
    {
      assert OccursAt(Lower(rows[i].cells[2]), Lower(""), 0);
    }
  }

  lemma LowerIdempotent(s: string)
    ensures Lower(Lower(s)) == Lower(s)
  {
  }

  /** The search ignores case: a term and its lower-cased form, or any two terms with the same
      lower-cased form, select the same rows. */
  lemma SearchIgnoresCase(rows: seq<Row>, t1: string, t2: string)
    requires Lower(t1) == Lower(t2)
    ensures SearchRows(rows, t1) == SearchRows(rows, t2)
    ensures SearchRows(rows, Lower(t1)) == SearchRows(rows, t1)
  {
    LowerIdempotent(t1);
  }

  /** Typing more narrows the search: a row the longer term shows, the shorter prefix shows too. */
  lemma ExtendingTermNarrows(rows: seq<Row>, t: string, more: string)
    ensures forall i :: (0 <= i < |rows| && |rows[i].cells| >= 3 && SearchRows(rows, t + more)[i].display == Shown)
                        ==> SearchRows(rows, t)[i].display == Shown
  {
    forall i | 0 <= i < |rows| && |rows[i].cells| >= 3 && SearchRows(rows, t + more)[i].display == Shown
      ensures SearchRows(rows, t)[i].display == Shown
    {
      var url := Lower(rows[i].cells[2]);
      var k :| OccursAt(url, Lower(t + more), k);
      forall j | 0 <= j < |t|
        ensures url[k + j] == Lower(t)[j]
      {
        assert url[k..k + |t + more|][j] == Lower(t + more)[j];
        assert (t + more)[j] == t[j];
      }
      assert url[k..k + |t|] == Lower(t);
      assert OccursAt(url, Lower(t), k);
    }
  }
}

=== FILE: vault.dfy ===
/** The vault engine (scripts/functions.py): read-modify-write operations over the one persisted
    document `{"user": {"salt", "password"}, "accounts": {id: record}}`. The file is the value
    `Store`; every operation reads it, and either leaves it alone or writes a whole new document. */
module Vault {
  import opened Results
  import opened Errors
  import opened Foreign
  import opened Crypt
  import Ids

  /** The parsed JSON document. A key the file lacks is `None`. */
  datatype Document = Document(user: Option<map<string, string>>, accounts: Option<map<string, EncRecord>>)

  /** The database file: absent, present but not JSON, or holding a document. */
  datatype Store = NoFile | Unparsable | Stored(doc: Document)

  /** What an operation does to the file: nothing, or a write of a whole document. */
  datatype Effect = Unchanged | Wrote(doc: Document)

  const UserKey := "user"
  const AccountsKey := "accounts"
  const SaltKey := "salt"
  const PasswordKey := "password"

  /** `database.read`: open() raises IOError on a missing file, json.loads a ValueError on a bad one. */
  function Read(store: Store): (r: Result<Document, Exception>)
    ensures r.Success? <==> store.Stored?
    ensures store.Stored? ==> r.value == store.doc
    ensures r.Failure? ==> (Caught(r.error) <==> store.NoFile?)
  {
    match store
    case NoFile => Failure(FileNotFound)
    case Unparsable => Failure(JsonError)
    case Stored(d) => Success(d)
  }

  /** The file after an operation: an escaping exception always leaves it untouched. */
  function After(store: Store, r: Result<Effect, Exception>): Store {
    match r
    case Success(Wrote(d)) => Stored(d)
    case _ => store
  }

  /** `db.get('accounts', {})` */
  function AccountsOf(d: Document): map<string, EncRecord> {
    d.accounts.GetOr(map[])
  }

  /** `initialize_db(dbpath, password)` with `bcryptSalt` the value `bcrypt.gensalt()` returns. */
  function InitializeDb(lib: Lib, store: Store, password: string, bcryptSalt: string): (r: Effect)
    ensures store != NoFile <==> r == Unchanged
    ensures r.Wrote? ==> r.doc.accounts == Some(map[]) && r.doc.user.Some?
                         && r.doc.user.value.Keys == {SaltKey, PasswordKey}
                         && r.doc.user.value[SaltKey] == bcryptSalt
                         && r.doc.user.value[PasswordKey] == lib.hashpw(lib.encodeUtf8(password), bcryptSalt)
  {
    if store != NoFile then Unchanged
    else
      var hashed := lib.hashpw(lib.encodeUtf8(password), bcryptSalt);
      Wrote(Document(Some(map[SaltKey := bcryptSalt, PasswordKey := hashed]), Some(map[])))
  }

  /** `db_data['user'].get('password', '')` */
  function StoredHash(user: map<string, string>): string {
    if PasswordKey in user then user[PasswordKey] else ""
  }

  /** `password_check(dbpath, password)`: false when the file is missing or has no user;
      otherwise bcrypt's verdict on the stored hash, which may raise on a malformed one. */
  function PasswordCheck(lib: Lib, store: Store, password: string): (r: Result<bool, Exception>)
    ensures store.NoFile? ==> r == Success(false)
    ensures store.Unparsable? ==> r == Failure(JsonError)
    ensures store.Stored? && store.doc.user.None? ==> r == Success(false)
    ensures store.Stored? && store.doc.user.Some? ==>
              r == lib.checkpw(lib.encodeUtf8(password), StoredHash(store.doc.user.value)).ToResult(InvalidHash)
    ensures r == Success(true) ==> store.Stored? && store.doc.user.Some?
    ensures r.Failure? ==> !Caught(r.error)
  {
    match Read(store)
    case Failure(e) => if Caught(e) then Success(false) else Failure(e)
    case Success(d) =>
      match d.user
      case None => Success(false)
      case Some(user) =>
        lib.checkpw(lib.encodeUtf8(password), StoredHash(user)).ToResult(InvalidHash)
  }

  /** `order` lists `keys`, each once: the dictionary's iteration order. */
  predicate Enumerates(order: seq<string>, keys: set<string>) {
    && (forall k :: k in keys ==> k in order)
    && (forall i :: 0 <= i < |order| ==> order[i] in keys)
    && (forall i, j :: 0 <= i < j < |order| ==> order[i] != order[j])
  }

  predicate AllDecrypt(lib: Lib, accounts: map<string, EncRecord>, masterPass: string) {
    forall k :: k in accounts ==> Decrypt(lib, accounts[k], masterPass).Success?
  }

  /** Every stored record, decrypted. */
  function DecryptedAll(lib: Lib, accounts: map<string, EncRecord>, masterPass: string): (m: map<string, Account>)
    requires AllDecrypt(lib, accounts, masterPass)
  {
    map k | k in accounts :: Decrypt(lib, accounts[k], masterPass).value
  }

  /** The dictionary comprehension of `load_db`: records are decrypted in `order`, and the
      first one that raises ends the comprehension with that exception. */
  function DecryptInOrder(lib: Lib, accounts: map<string, EncRecord>, masterPass: string, order: seq<string>)
    : (r: Result<map<string, Account>, Exception>)
    requires forall i :: 0 <= i < |order| ==> order[i] in accounts
    ensures r.Success? <==> forall i :: 0 <= i < |order| ==> Decrypt(lib, accounts[order[i]], masterPass).Success?
    ensures r.Success? ==> forall k :: k in r.value <==> k in order
    ensures r.Success? ==> forall k :: k in r.value ==> Decrypt(lib, accounts[k], masterPass) == Success(r.value[k])
    ensures r.Failure? ==> exists i :: 0 <= i < |order| && Decrypt(lib, accounts[order[i]], masterPass) == Failure(r.error)
                                       && forall j :: 0 <= j < i ==> Decrypt(lib, accounts[order[j]], masterPass).Success?
  {
    if order == [] then Success(map[])
    else
      var id := order[0];
      var acc :- Decrypt(lib, accounts[id], masterPass);
      var rest :- DecryptInOrder(lib, accounts, masterPass, order[1..]);
      Success(rest[id := acc])
  }

  predicate OrderFits(store: Store, order: seq<string>) {
    store.Stored? ==> Enumerates(order, AccountsOf(store.doc).Keys)
  }

  /** `load_db(dbpath, master_pass)`: every record decrypted, or `{}` as soon as a caught
      exception (a missing file or field) occurs; any other exception escapes. Never a part. */
  function LoadDb(lib: Lib, store: Store, masterPass: string, order: seq<string>): (r: Result<map<string, Account>, Exception>)
    requires OrderFits(store, order)
    ensures store.NoFile? ==> r == Success(map[])
    ensures store.Unparsable? ==> r == Failure(JsonError)
    ensures store.Stored? && AllDecrypt(lib, AccountsOf(store.doc), masterPass) ==>
              r == Success(DecryptedAll(lib, AccountsOf(store.doc), masterPass))
    ensures r.Success? ==> r.value == map[]
                           || (store.Stored? && AllDecrypt(lib, AccountsOf(store.doc), masterPass))
    ensures r.Failure? ==> !Caught(r.error)
  {
    match Read(store)
    case Failure(e) => if Caught(e) then Success(map[]) else Failure(e)
    case Success(d) =>
      var accounts := AccountsOf(d);
      match DecryptInOrder(lib, accounts, masterPass, order)
      case Success(m) =>
        assert m == DecryptedAll(lib, accounts, masterPass);
        Success(m)
      case Failure(e) => if Caught(e) then Success(map[]) else Failure(e)
  }

  /** `edit_account`: an upsert. `accounts[id]` becomes a fresh encryption of the edited account
      whether or not `id` was there; without an `accounts` key the KeyError is caught. */
  function EditAccount(lib: Lib, store: Store, id: string, edited: Account, masterPass: string, rnd: Entropy)
    : (r: Result<Effect, Exception>)
    ensures store.NoFile? || (store.Stored? && store.doc.accounts.None?) ==> r == Success(Unchanged)
    ensures store.Unparsable? ==> r == Failure(JsonError)
    ensures store.Stored? && store.doc.accounts.Some? ==>
              && r.Success? && r.value.Wrote?
              && r.value.doc.user == store.doc.user
              && r.value.doc.accounts.Some?
              && AccountsOf(r.value.doc).Keys == AccountsOf(store.doc).Keys + {id}
              && AccountsOf(r.value.doc)[id] == Encrypt(lib, lib.jsonDumps(edited), masterPass, rnd)
              && forall k :: k in AccountsOf(store.doc) && k != id ==> AccountsOf(r.value.doc)[k] == AccountsOf(store.doc)[k]
  {
    match Read(store)
    case Failure(e) => if Caught(e) then Success(Unchanged) else Failure(e)
    case Success(d) =>
      var account := Encrypt(lib, lib.jsonDumps(edited), masterPass, rnd);
      match d.accounts
      case None => Success(Unchanged)
      case Some(accounts) => Success(Wrote(d.(accounts := Some(accounts[id := account]))))
  }

  /** `add_account`: stores a fresh encryption under a newly generated id, creating the
      `accounts` map when absent. No collision check: an existing entry under the same id is
      overwritten. */
  function AddAccount(lib: Lib, store: Store, idLength: int, masterPass: string, newAccount: Account,
                      draw: nat -> nat, rnd: Entropy): (r: Result<Effect, Exception>)
    ensures store.NoFile? ==> r == Success(Unchanged)
    ensures store.Unparsable? ==> r == Failure(JsonError)
    ensures store.Stored? ==>
              var id := Ids.GenerateId(idLength, draw);
              && r.Success? && r.value.Wrote?
              && r.value.doc.user == store.doc.user
              && r.value.doc.accounts.Some?
              && AccountsOf(r.value.doc).Keys == AccountsOf(store.doc).Keys + {id}
              && AccountsOf(r.value.doc)[id] == Encrypt(lib, lib.jsonDumps(newAccount), masterPass, rnd)
              && forall k :: k in AccountsOf(store.doc) && k != id ==> AccountsOf(r.value.doc)[k] == AccountsOf(store.doc)[k]
  {
    match Read(store)
    case Failure(e) => if Caught(e) then Success(Unchanged) else Failure(e)
    case Success(d) =>
      var id := Ids.GenerateId(idLength, draw);
      var enc := Encrypt(lib, lib.jsonDumps(newAccount), masterPass, rnd);
      Success(Wrote(d.(accounts := Some(AccountsOf(d)[id := enc]))))
  }

  /** `delete_account`: removes exactly `id`; when it is absent nothing is written. */
  function DeleteAccount(store: Store, id: string): (r: Result<Effect, Exception>)
    ensures store.NoFile? ==> r == Success(Unchanged)
    ensures store.Unparsable? ==> r == Failure(JsonError)
    ensures store.Stored? ==> r.Success? && (r.value.Wrote? <==> id in AccountsOf(store.doc))
    ensures r.Success? && r.value.Wrote? ==>
              && r.value.doc.user == store.doc.user
              && AccountsOf(r.value.doc).Keys == AccountsOf(store.doc).Keys - {id}
              && forall k :: k in AccountsOf(r.value.doc) ==> AccountsOf(r.value.doc)[k] == AccountsOf(store.doc)[k]
  {
    match Read(store)
    case Failure(e) => if Caught(e) then Success(Unchanged) else Failure(e)
    case Success(d) =>
      if id in AccountsOf(d) then Success(Wrote(d.(accounts := Some(AccountsOf(d) - {id}))))
      else Success(Unchanged)
  }
}
